=== FILE: README.md ===
# Majestic Manor booking and payment lifecycle

A Dafny model of the hotel app's booking and payment core. The database is
an immutable `Ledger` with three tables: rooms, customers and bookings, each
a sequence in primary-key order. Every view is a pure transition over it.

- `book_room` turns a form into a customer lookup or insert, a gateway order
  request and, on success, one pending booking.
- `payment_success` is the gateway callback. It reconciles a booking to
  `confirmed` or `failed`.
- `checkout` and `room_list` are read-only views.
- `dashboard` is the billing summary.

The Razorpay client is not modelled. Order creation becomes an
`OrderOutcome` parameter: `OrderCreated(id)`, `OrderBadRequest` or
`OrderError(detail)`. Signature verification becomes a `Verification`
parameter: `Verified`, `SignatureInvalid` or `VerifyError(detail)`.
`book_room` also returns the order request it would send, so the model can
state what amount the gateway is asked for.

Modules:

- `Wrappers`: `Option` and `Result`.
- `Queries`: the two ORM query shapes the views use. `Filter` keeps the
  matching rows in order. `Find` models `.get()`, which has three outcomes:
  no row, exactly one row, or several rows (`MultipleObjectsReturned`).
- `Models` (book/models.py): the choice columns, the rows, the schema
  invariant `Valid`, the column defaults, the `unique` room number and the
  PROTECT and CASCADE deletes.
- `Billing` (billing/views.py): the dashboard aggregates and how they move.
- `Views` (book/views.py): the views as transitions.
- `Lifecycle`: lemmas that relate several transitions to each other and to
  the dashboard.
- `FloatPaise`: the source's float conversion of prices to paise, modelled
  with IEEE 754 binary64 rounding (see Findings).

Amounts are integer paise. Both money columns are two-place decimals, so a
price `p` rupees is `100 * p` paise exactly. Dates are opaque day numbers,
because no view compares them.

Behaviours of the code worth noting:

- Only a verified callback stores the payment id and signature. The
  failure paths save the status and return before lines 170-171.
- A callback has no guard on the booking's current status, so a confirmed
  booking can become `failed`. `confirmed` and `failed` are not terminal.
- `razorpay_order_id` has no unique constraint. Two bookings with the same
  order id make the callback's `.get()` raise, which is modelled as
  `ServerError` with no change to the ledger.
- Customer lookup uses `get_or_create`. If two customers share an email it
  raises (`ServerError`, no change); it does not take the first match.
- `room_list` only filters on `available=True`. The date-aware availability
  search is routed in book/urls.py:12, but `views.search` is not defined in
  book/views.py.

## Model

| member | source | states |
|---|---|---|
| Models.ParseRoomType | book/models.py:6-12 | Only the three declared room types are accepted, and each one reads back as the code it is stored under. |
| Models.ParseStatus | book/models.py:34-39 | Only `pending`, `confirmed`, `cancelled` and `failed` are statuses. Parsing and encoding are inverse in both directions. |
| Models.CreateRoom | book/models.py:11-15 | The number and description are cleaned first: surrounding whitespace is stripped. Every check applies to the cleaned values. An insert succeeds exactly when the cleaned number has 1 to 10 characters and no NUL, the description has no NUL, the price fits in 8 digits, and no room has the cleaned number. A rejection lists every failing check. The duplicate-number error appears only when the number itself is well formed. On success one room is appended with the next room id and the cleaned values, and `available` defaults to true. Only the room table and its counter change, and the schema invariant is preserved. |
| Models.DeleteRoom | book/models.py:41 | Deleting a room fails with ProtectedError exactly when some booking refers to it. Otherwise the remaining rooms are exactly the other rooms, each as often as before. Every other table and counter is unchanged, and no booking is left without its room. |
| Models.DeleteCustomer | book/models.py:42 | Deleting a customer leaves exactly the other customers, each as often as before. It also removes exactly that customer's bookings, and other customers' bookings keep their multiplicity. Rooms and id counters are unchanged, and the schema invariant is preserved. |
| Models.CreateBooking | book/models.py:45-51 | A new booking takes the next booking id, status `pending`, and no payment id or signature. Only the booking table and its counter change, and the existing rows are untouched. If the room and customer exist and the amount fits in 9 digits, the invariant is preserved. |
| Queries.Find | book/views.py:139-142 | The lookup finds nothing exactly when no row has the key. It returns one index exactly when that row is the only one with the key, and returns Many only when two rows share it. |
| Billing.Tally | billing/views.py:9-10 | An aggregate is zero exactly when every booking contributes zero. The pending count never exceeds the number of bookings. |
| Billing.Dashboard | billing/views.py:4-10 | The number of orders is the number of rows and is at least the pending count. Pending is zero exactly when no booking is pending. Revenue is zero exactly when every confirmed booking has amount 0. |
| Billing.TallyPermutation | billing/views.py:9-10 | Reordering the bookings leaves each aggregate unchanged. |
| Billing.DashboardIgnoresOrder | billing/views.py:5-10 | Any reordering of the rows, including newest-first, gives the same three numbers. |
| Billing.DashboardAppend | billing/views.py:8-10 | One more row adds one order. A pending row adds one pending payment. A confirmed row adds its amount to revenue. Failed and cancelled rows add neither. |
| Billing.DashboardUpdate | billing/views.py:8-10 | Rewriting one row keeps the order count, and moves pending and revenue by what the old row and the new row each contribute. |
| Views.GetOrCreateCustomer | book/views.py:58-65 | The lookup fails exactly when the email is shared. A known email reuses that customer and changes nothing, so name and phone are not overwritten. An unknown email appends exactly one customer built from the form. |
| Views.SubmitBooking | book/views.py:48-107 | The gateway is asked for the room's one-night price in INR with auto-capture. It is reached unless the email is ambiguous. A booking is appended exactly when an order was created: pending, with the gateway's order id, that same amount, and the form's dates and customer. The two gateway errors produce the two error pages and create no booking. |
| Views.BookRoom | book/views.py:45-109 | An unknown room gives 404 and changes nothing. A non-POST request changes nothing and sends no order. Otherwise the view does what SubmitBooking does, and the schema invariant is preserved. |
| Views.Settle | book/views.py:152-174 | The outcome alone sets the status: `confirmed` if verified, `failed` otherwise. Only a verified payment stores the payment id and signature, verbatim. Room, customer, dates, amount and order id are unchanged, and so is every other row. |
| Views.PaymentSuccess | book/views.py:128-174 | A non-POST request is a bad request with no change. An unknown order id gives "Booking not found." with no change. A duplicated order id gives ServerError. The booking that alone holds the order id is settled. No booking returns to pending, and the invariant is preserved. |
| Views.Checkout | book/views.py:115-122 | The result is 404 exactly when no booking has the id. Otherwise the page shows that booking's stored amount in paise and its order id. |
| Views.RoomList | book/views.py:32-34 | The listed rooms are exactly the available ones, each as often as it is stored. |
| Lifecycle.BookRoomDashboard | book/views.py:89-97 | A booking that was created adds one order and one pending payment, and no revenue. Any other outcome leaves the dashboard unchanged. |
| Lifecycle.CallbackDashboard | book/views.py:153-167 | A callback on a booking keeps the order count and removes that booking's pending payment. Revenue moves by the booking's amount exactly when the booking enters or leaves `confirmed`. |
| Lifecycle.ConfirmPendingDashboard | book/views.py:153-155 | A verified callback on a pending booking lowers pending by one and raises revenue by the booking's amount. |
| Lifecycle.CallbackNeverAddsPending | book/views.py:129-174 | No callback, whatever its inputs, raises the pending count. |
| Lifecycle.NoGuardOnPriorStatus | book/views.py:139-167 | The same callback gives the same ledger whatever status the booking had before it. |
| Lifecycle.CheckoutShowsChargedAmount | book/views.py:115-122 | After a successful booking, its checkout page shows the paise amount that was sent to the gateway and the order id the gateway returned. |
| Lifecycle.ReachedGatewayLeavesOneHolder | book/views.py:58-65 | After a booking request reaches the gateway, exactly one customer has its email. |
| Lifecycle.SameEmailSameCustomer | book/views.py:58-65 | A second booking with the same email adds no customer and is made by the same customer as the first. |
| Lifecycle.TransitionsKeepAwaitingRowsUnpaid | book/models.py:48-51 | Both views keep every pending booking free of a payment id and a signature. |
| Lifecycle.EmailNotUnique | book/models.py:26 | A valid database may hold two customers with one email. |
| FloatPaise.RoundToBinary64 | book/views.py:68 | The result has a mantissa between 2^52 and 2^53, where 2^53 is the carry into the next power of two. It lies within half a unit in the last place of the exact value. |
| FloatPaise.AsWrittenPaise | book/views.py:68-69 | The amount computed through floats is never above the price, and at most one paisa below it. |
| FloatPaise.UnderchargedPrice | book/views.py:68-69 | Some price the column can hold is sent to the gateway below its value. The proof exhibits 1024.09 rupees, which goes out as 102408 paise. |

## Findings

| source | as written | input that shows it | evidently intended | confidence | as-written member | corrected member |
|---|---|---|---|---|---|---|
| book/views.py:68-69 | `amount_paise = int(float(price_per_night) * 100)`: a double product, truncated | price 1024.09 (102409 paise): the double product lies just below 102409, so 102408 paise are sent | the exact amount, 102409 paise, which checkout also shows (book/views.py:120) | not executed; proved on an explicit binary64 rounding model | FloatPaise.UnderchargedPrice | Views.SubmitBooking |

`FloatPaise.AsWrittenPaise` models the expression as written: round to the
nearest double, multiply in doubles, then truncate. Its contract shows the
error is always downward and at most one paisa. `UnderchargedPrice` exhibits
a price where the error occurs. The rest of the model uses exact paise:
`Views.SubmitBooking` sends the room's price in paise, and
`Lifecycle.CheckoutShowsChargedAmount` proves that checkout shows exactly
that amount.

## Left out

- Razorpay SDK internals (order creation, HMAC-SHA256 signature
  verification, the client built from settings): they are foreign code.
  Their results are parameters.
- Exception texts: the `{e}` in the two generic error messages is an opaque
  `detail` string.
- Float arithmetic in `book_room`: the main model uses exact integer paise.
  The float behaviour is modelled separately in `FloatPaise` and reported
  under Findings. `Decimal(total_amount)` stores a float-derived decimal,
  and Django rounds it to two places on save; that rounding is library
  behaviour and is idealised as the exact price.
- Missing form fields: `request.POST.get` can yield `None` in `book_room`.
  The model assumes every booking-form field is present, because the
  database's NOT NULL rejection happens in library code. The callback's
  fields are modelled as optional values.
- Date parsing: check-in and check-out are day numbers. An unparseable date
  and the missing check that check-out follows check-in are not modelled.
- `max_length` on the customer and booking text columns: `book_room` writes
  them through `get_or_create` and `create`, which skip form validation, and
  SQLite does not enforce the length. The room number's length is checked in
  `Models.CreateRoom`.
- The `razorpay_key_id` shown on the payment and checkout pages is
  configuration and is not modelled.
- `home`, `room_detail`, the `HomePage` model, templates, CSRF exemption,
  `created_at` timestamps and image fields: rendering or metadata with no
  logic.
- Majestic_Manor/views.py (signup through Django's `UserCreationForm`) and
  Majestic_Manor/settings.py (configuration).
- book/urls.py is routing only. `views.search` has no definition, so there
  is no availability search to model.
- Concurrency: concurrent callbacks for one order id, and a crash between
  order creation and saving the booking. Each view is one atomic
  transition.
- Models.DeleteRoom: deleting a room id that does not exist is a no-op. A
  view would fetch the room first and raise `DoesNotExist`.
- Models.CreateRoom: it models the validating (admin form) insert path.
  That path strips whitespace from the number and the description, rejects
  NUL characters, and rejects an empty or over-long number and an over-long
  price. A raw insert does none of this. `available == None` stands for a
  submission that leaves the field at its default, checked. Whitespace is
  Python's `str.isspace()` set.
- Models.CreateRoom: negative prices and amounts are not modelled, because
  money is `Paise`, a `nat`. Both decimal columns are signed, and the admin
  form accepts, say, -0.29. A negative room rate would also make
  `book_room` request a negative amount. The model keeps money
  non-negative so that the dashboard sums stay natural numbers.
- FloatPaise.AsWrittenPaise: its bound (never above the price, at most one
  paisa below) covers non-negative prices only. For a negative price `int()`
  truncates toward zero, so the amount sent can be one paisa above the price:
  -0.29 becomes -28 paise.
- FloatPaise.RoundToBinary64: the exponent range is unbounded, so neither
  overflow nor subnormal doubles are modelled. Every price of at least one
  paisa, and every amount below 10^9 paise, lies far inside the normal range.

=== FILE: billing.dfy ===
/**
 * The billing dashboard: three aggregates over every booking row, recomputed
 * on each request.
 */
module Billing {
  import opened Models

  /** The two per-booking sums the dashboard takes. */
  datatype Aggregate = ConfirmedRevenue | PendingCount

  /** What one booking adds to an aggregate. */
  function Weight(a: Aggregate, b: Booking): nat {
    match a
    case ConfirmedRevenue => if b.status == Confirmed then b.totalAmount else 0
    case PendingCount => if b.status == Pending then 1 else 0
  }

  /** The aggregate over a sequence of bookings. */
  function Tally(a: Aggregate, bs: seq<Booking>): (t: nat)
    ensures t == 0 <==> forall i :: 0 <= i < |bs| ==> Weight(a, bs[i]) == 0
    ensures a == PendingCount ==> t <= |bs|
    decreases |bs|
  {
    if |bs| == 0 then 0 else Weight(a, bs[0]) + Tally(a, bs[1..])
  }

  /** The numbers shown on the dashboard. */
  datatype Summary = Summary(totalOrders: nat, totalRevenue: Paise, pendingPayments: nat)

  /**
   * `dashboard`: the number of bookings, the amount of the confirmed ones, and
   * the number still pending. Failed and cancelled bookings count as orders only.
   */
  function Dashboard(bs: seq<Booking>): (s: Summary)
    ensures s.totalOrders == |bs|
    ensures s.pendingPayments <= s.totalOrders
    ensures s.pendingPayments == 0 <==> forall i :: 0 <= i < |bs| ==> bs[i].status != Pending
    ensures s.totalRevenue == 0 <==>
              forall i :: 0 <= i < |bs| && bs[i].status == Confirmed ==> bs[i].totalAmount == 0
  {
    Summary(|bs|, Tally(ConfirmedRevenue, bs), Tally(PendingCount, bs))
  }

  /** Aggregates add up over concatenation. */
  lemma {:induction false} TallyAppend(a: Aggregate, xs: seq<Booking>, ys: seq<Booking>)
    ensures Tally(a, xs + ys) == Tally(a, xs) + Tally(a, ys)
    decreases |xs|
  {
    if |xs| > 0 {
      assert (xs + ys)[1..] == xs[1..] + ys;
      TallyAppend(a, xs[1..], ys);
    } else {
      assert xs + ys == ys;
    }
  }

  /** Removing the booking at `i` subtracts exactly its weight. */
  lemma TallySplit(a: Aggregate, bs: seq<Booking>, i: nat)
    requires i < |bs|
    ensures Tally(a, bs) == Tally(a, bs[..i]) + Weight(a, bs[i]) + Tally(a, bs[i + 1..])
  {
    assert bs == bs[..i] + ([bs[i]] + bs[i + 1..]);
    TallyAppend(a, bs[..i], [bs[i]] + bs[i + 1..]);
    assert ([bs[i]] + bs[i + 1..])[1..] == bs[i + 1..];
  }

  /** Replacing one booking changes an aggregate by the difference of the two weights. */
  lemma TallyUpdate(a: Aggregate, bs: seq<Booking>, i: nat, b: Booking)
    requires i < |bs|
    ensures Tally(a, bs[i := b]) + Weight(a, bs[i]) == Tally(a, bs) + Weight(a, b)
  {
    var bs' := bs[i := b];
    TallySplit(a, bs, i);
    TallySplit(a, bs', i);
    assert bs'[..i] == bs[..i] && bs'[i + 1..] == bs[i + 1..];
  }

  /** Cutting element `i` out of a sequence removes one copy of it from the multiset. */
  lemma MultisetCut(ys: seq<Booking>, i: nat)
    requires i < |ys|
    ensures multiset(ys[..i] + ys[i + 1..]) == multiset(ys) - multiset{ys[i]}
  {
    assert ys == ys[..i] + [ys[i]] + ys[i + 1..];
  }

  /** An aggregate depends only on which bookings there are, not on their order. */
  lemma {:induction false} TallyPermutation(a: Aggregate, xs: seq<Booking>, ys: seq<Booking>)
    requires multiset(xs) == multiset(ys)
    ensures Tally(a, xs) == Tally(a, ys)
    decreases |xs|
  {
    if |xs| == 0 {
      assert |ys| == |multiset(ys)| == 0;
    } else {
      var x := xs[0];
      assert x in multiset(ys);
      assert x in ys;
      var i :| 0 <= i < |ys| && ys[i] == x;
      var rest := ys[..i] + ys[i + 1..];
      MultisetCut(ys, i);
      MultisetCut(xs, 0);
      assert xs[..0] + xs[1..] == xs[1..];
      TallyPermutation(a, xs[1..], rest);
      TallySplit(a, ys, i);
      TallyAppend(a, ys[..i], ys[i + 1..]);
      assert Tally(a, xs) == Weight(a, x) + Tally(a, xs[1..]);
    }
  }

  /**
   * The dashboard lists bookings newest first, but the three numbers are the
   * same under any ordering of the rows.
   */
  lemma DashboardIgnoresOrder(xs: seq<Booking>, ys: seq<Booking>)
    requires multiset(xs) == multiset(ys)
    ensures Dashboard(xs) == Dashboard(ys)
  {
    assert |xs| == |multiset(xs)| == |multiset(ys)| == |ys|;
    TallyPermutation(ConfirmedRevenue, xs, ys);
    TallyPermutation(PendingCount, xs, ys);
  }

  /** What one more booking row does to each number, by its status. */
  lemma DashboardAppend(bs: seq<Booking>, b: Booking)
    ensures Dashboard(bs + [b]).totalOrders == Dashboard(bs).totalOrders + 1
    ensures Dashboard(bs + [b]).pendingPayments
              == Dashboard(bs).pendingPayments + (if b.status == Pending then 1 else 0)
    ensures Dashboard(bs + [b]).totalRevenue
              == Dashboard(bs).totalRevenue + (if b.status == Confirmed then b.totalAmount else 0)
  {
    TallyAppend(ConfirmedRevenue, bs, [b]);
    TallyAppend(PendingCount, bs, [b]);
  }

  /** What rewriting one booking row does to each number, by its old and new status. */
  lemma DashboardUpdate(bs: seq<Booking>, i: nat, b: Booking)
    requires i < |bs|
    ensures Dashboard(bs[i := b]).totalOrders == Dashboard(bs).totalOrders
    ensures Dashboard(bs[i := b]).pendingPayments + (if bs[i].status == Pending then 1 else 0)
              == Dashboard(bs).pendingPayments + (if b.status == Pending then 1 else 0)
    ensures Dashboard(bs[i := b]).totalRevenue + (if bs[i].status == Confirmed then bs[i].totalAmount else 0)
              == Dashboard(bs).totalRevenue + (if b.status == Confirmed then b.totalAmount else 0)
  {
    TallyUpdate(ConfirmedRevenue, bs, i, b);
    TallyUpdate(PendingCount, bs, i, b);
  }
}

=== FILE: float_paise.dfy ===
/**
 * The amount `book_room` sends to the payment gateway is computed as
 * `int(float(price) * 100)`: the two-decimal price is converted to an IEEE 754
 * binary64 double, multiplied by 100 in binary64, and truncated toward zero.
 * This module models that computation exactly for positive normal doubles,
 * with round-to-nearest, ties-to-even, and exhibits a price it undercharges.
 */
module FloatPaise {
  import opened Models

  function Pow2(n: nat): (p: nat)
    ensures p >= 1
  {
    if n == 0 then 1 else 2 * Pow2(n - 1)
  }

  lemma {:induction false} Pow2Add(a: nat, b: nat)
    ensures Pow2(a + b) == Pow2(a) * Pow2(b)
    decreases a
  {
    if a > 0 {
      Pow2Add(a - 1, b);
      assert Pow2(a + b) == 2 * Pow2(a - 1 + b);
    }
  }

  /** The powers of two the model needs as numbers. */
  lemma Pow2Values()
    ensures Pow2(36) == 68719476736
    ensures Pow2(42) == 4398046511104
  {
    assert Pow2(10) == 1024 && Pow2(6) == 64;
    Pow2Add(10, 10);
    Pow2Add(20, 10);
    Pow2Add(30, 6);
    Pow2Add(30, 10);
    Pow2Add(40, 2);
  }

  /** The bounds of a binary64 significand: 53 bits with the leading one explicit. */
  const Two52: nat := 4503599627370496
  const Two53: nat := 2 * Two52

  /** The double `mantissa / 2^scale`. */
  datatype Binary64 = Binary64(mantissa: nat, scale: nat)

  /**
   * The scale `e >= k` at which `n / d` has a 53-bit integer part:
   * `2^52 <= n * 2^e / d < 2^53`.
   */
  function Scale(n: nat, d: nat, k: nat): (e: nat)
    requires 0 < n && 0 < d && n * Pow2(k) < Two53 * d
    ensures k <= e
    ensures Two52 * d <= n * Pow2(e) < Two53 * d
    decreases Two52 * d - n * Pow2(k)
  {
    if n * Pow2(k) >= Two52 * d then k
    else
      assert n * Pow2(k + 1) == 2 * (n * Pow2(k));
      Scale(n, d, k + 1)
  }

  lemma MulLe(a: nat, b: nat, c: nat)
    requires a <= b
    ensures a * c <= b * c
  {
  }

  /** A quotient inherits the bounds of its dividend. */
  lemma QuotientBounds(s: nat, d: nat, lo: nat)
    requires 0 < d && lo * d <= s < 2 * lo * d
    ensures lo <= s / d < 2 * lo
  {
    var q := s / d;
    assert s == q * d + s % d;
    if q < lo {
      MulLe(q + 1, lo, d);
    }
    if q >= 2 * lo {
      MulLe(2 * lo, q, d);
    }
  }

  /** Either neighbour of `s / d` on the correct side of the midpoint is within half a unit. */
  lemma NeighbourWithinHalf(s: int, d: int, q: int, r: int, m: int)
    requires 0 < d && s == q * d + r && 0 <= r < d
    requires m == q || m == q + 1
    requires m == q ==> 2 * r <= d
    requires m == q + 1 ==> 2 * r >= d
    ensures 2 * (m * d - s) <= d && 2 * (s - m * d) <= d
  {
    if m == q + 1 {
      assert m * d == q * d + d;
    }
  }

  lemma DivModFacts(s: nat, d: nat)
    requires 0 < d
    ensures s == (s / d) * d + s % d && 0 <= s % d < d
  {
  }

  /** `s / d` rounded to the nearest integer, ties to even. */
  function RoundHalfEven(s: nat, d: nat): nat
    requires 0 < d
  {
    var q := s / d;
    var r := s % d;
    if 2 * r > d || (2 * r == d && q % 2 == 1) then q + 1 else q
  }

  /** The rounded quotient is a neighbour of `s / d` within half a unit of it. */
  lemma RoundHalfEvenNearest(s: nat, d: nat)
    requires 0 < d
    ensures var m := RoundHalfEven(s, d);
            && (m == s / d || m == s / d + 1)
            && 2 * (m * d - s) <= d && 2 * (s - m * d) <= d
  {
    DivModFacts(s, d);
    NeighbourWithinHalf(s, d, s / d, s % d, RoundHalfEven(s, d));
  }

  /**
   * The double nearest to `n / d` (ties to an even mantissa), for a positive
   * value below 2^53. The exponent is unbounded below, so subnormals are not
   * modelled. A mantissa of exactly 2^53 is the carry into the next power of
   * two, the same value as 2^52 at one scale less.
   */
  function RoundToBinary64(n: nat, d: nat): (f: Binary64)
    requires 0 < n && 0 < d && n < Two53 * d
    ensures Two52 <= f.mantissa <= Two53
    // within half a unit in the last place of the exact value
    ensures 2 * (f.mantissa * d - n * Pow2(f.scale)) <= d
    ensures 2 * (n * Pow2(f.scale) - f.mantissa * d) <= d
  {
    var e := Scale(n, d, 0);
    var scaled := n * Pow2(e);
    QuotientBounds(scaled, d, Two52);
    RoundHalfEvenNearest(scaled, d);
    Binary64(RoundHalfEven(scaled, d), e)
  }

  /** The second rounding of `AsWrittenPaise` is again within range. */
  lemma TimesHundredInRange(price: Paise, f: Binary64)
    requires 0 < price < PriceLimit
    requires 2 * (f.mantissa * 100 - price * Pow2(f.scale)) <= 100
    ensures 100 * f.mantissa < Two53 * Pow2(f.scale)
  {
    var a := Pow2(f.scale);
    var pa := price * a;
    assert 100 * f.mantissa <= pa + 50;
    assert (price + 51) * a == pa + 51 * a;
    MulLe(price + 51, Two53, a);
  }

  lemma MulLeInt(a: int, b: int, c: nat)
    requires a <= b
    ensures a * c <= b * c
  {
  }

  /** The first rounding lands at a scale of at least 2^7. */
  lemma FirstScaleLarge(price: Paise, m: nat, a: nat)
    requires 0 < price < PriceLimit && 0 < a
    requires m >= 4503599627370496
    requires 2 * (m * 100 - price * a) <= 100
    ensures a >= 128
  {
    if a < 128 {
      MulLe(a, 127, price);
    }
  }

  /**
   * Two roundings, each within half a unit, keep the truncated result within
   * one paisa below the price: with `a = 2^scale1` and `b = 2^scale2`, the
   * error of the second product stays below one unit of `b`.
   */
  lemma TwoRoundingsWithinOne(p: nat, m1: nat, a: nat, m2: nat, b: nat)
    requires p > 0 && a >= 128 && b >= 1
    requires 2 * (m1 * 100 - p * a) <= 100 && 2 * (p * a - m1 * 100) <= 100
    requires 2 * (m2 * a - (100 * m1) * b) <= a && 2 * ((100 * m1) * b - m2 * a) <= a
    ensures (p - 1) * b < m2 < (p + 1) * b
  {
    var x := m1 * 100;
    MulLeInt(x - p * a, 50, b);
    MulLeInt(p * a - x, 50, b);
    assert (x - p * a) * b == x * b - p * a * b;
    assert (p * a - x) * b == p * a * b - x * b;
    assert (100 * m1) * b == x * b;
    MulLe(128, a, 2 * b - 1);
    assert ((p + 1) * b) * a == p * a * b + a * b;
    assert ((p - 1) * b) * a == p * a * b - a * b;
    assert a * (2 * b - 1) == 2 * (a * b) - a;
    if m2 >= (p + 1) * b {
      MulLe((p + 1) * b, m2, a);
      assert false;
    }
    if m2 <= (p - 1) * b {
      MulLeInt(m2, (p - 1) * b, a);
      assert false;
    }
  }

  /** Truncating a value strictly between `p - 1` and `p + 1` units gives `p - 1` or `p`. */
  lemma TruncateNear(p: nat, m: nat, b: nat)
    requires p > 0 && b >= 1
    requires (p - 1) * b < m < (p + 1) * b
    ensures p - 1 <= m / b <= p
  {
    var q := m / b;
    assert m == q * b + m % b;
    if q > p {
      MulLe(p + 1, q, b);
    }
    if q < p - 1 {
      MulLe(q + 1, p - 1, b);
    }
  }

  /**
   * `int(float(price_per_night) * 100)` for a price of `price` paise: never
   * more than the price, and at most one paisa less.
   */
  function AsWrittenPaise(price: Paise): (amount: nat)
    requires price < PriceLimit
    ensures amount <= price
    ensures price <= amount + 1
  {
    if price == 0 then 0
    else
      Pow2Values();
      var asFloat := RoundToBinary64(price, 100);
      TimesHundredInRange(price, asFloat);
      var times100 := RoundToBinary64(100 * asFloat.mantissa, Pow2(asFloat.scale));
      FirstScaleLarge(price, asFloat.mantissa, Pow2(asFloat.scale));
      TwoRoundingsWithinOne(price, asFloat.mantissa, Pow2(asFloat.scale), times100.mantissa, Pow2(times100.scale));
      TruncateNear(price, times100.mantissa, Pow2(times100.scale));
      times100.mantissa / Pow2(times100.scale)
  }

  /** Halving a value below the upper window bound puts it below the lower one. */
  lemma HalfBelowWindow(n: nat, d: nat, k: nat)
    requires n * Pow2(k + 1) < Two53 * d
    ensures n * Pow2(k) < Two52 * d
  {
    var a := Pow2(k);
    var w := Two52;
    assert Pow2(k + 1) == 2 * a;
    assert Two53 == 2 * w;
    assert n * (2 * a) == 2 * (n * a);
    assert (2 * w) * d == 2 * (w * d);
  }

  /** `Scale` finds the one scale whose window holds the value. */
  lemma {:induction false} ScaleIs(n: nat, d: nat, k: nat, e: nat)
    requires 0 < n && 0 < d && k <= e
    requires Two52 * d <= n * Pow2(e) < Two53 * d
    ensures n * Pow2(k) < Two53 * d && Scale(n, d, k) == e
    decreases e - k
  {
    if k < e {
      ScaleIs(n, d, k + 1, e);
      HalfBelowWindow(n, d, k);
      assert Two52 * d <= Two53 * d by {
        MulLe(Two52, Two53, d);
      }
    }
  }

  /** `float(Decimal("1024.09"))` is the double 4503995451556495 / 2^42. */
  lemma PriceAsDouble()
    ensures RoundToBinary64(102409, 100) == Binary64(4503995451556495, 42)
  {
    Pow2Values();
    ScaleIs(102409, 100, 0, 42);
    assert 102409 * Pow2(42) == 450399545155649536;
    assert 450399545155649536 / 100 == 4503995451556495;
    assert 450399545155649536 % 100 == 36;
  }

  /** That double times 100, rounded, is 7037492893057023 / 2^36, just below 102409. */
  lemma HundredfoldAsDouble()
    ensures RoundToBinary64(450399545155649500, 4398046511104) == Binary64(7037492893057023, 36)
  {
    Pow2Values();
    ScaleIs(450399545155649500, 4398046511104, 0, 36);
    assert 450399545155649500 * Pow2(36) == 30951221065228637314220032000;
    assert 30951221065228637314220032000 / 4398046511104 == 7037492893057023;
    assert 30951221065228637314220032000 % 4398046511104 == 1924145348608;
  }

  /**
   * Some in-range price is sent to the gateway below its value: 1024.09
   * rupees goes out as 102408 paise.
   */
  lemma UnderchargedPrice()
    ensures exists price: Paise :: price < PriceLimit && AsWrittenPaise(price) < price
  {
    assert AsWrittenPaise(102409) == 102408 by {
      Pow2Values();
      PriceAsDouble();
      HundredfoldAsDouble();
      assert 7037492893057023 / 68719476736 == 102408;
    }
  }
}

=== FILE: lifecycle.dfy ===
/**
 * Properties that relate several views: how each transition moves the
 * billing numbers, what a callback does regardless of history, and what a
 * later request sees of an earlier one.
 */
module Lifecycle {
  import opened Wrappers
  import opened Queries
  import opened Models
  import opened Billing
  import opened Views

  /** In a valid ledger a booking is determined by its id. */
  lemma BookingIdDetermines(l: Ledger, a: Booking, b: Booking)
    requires Valid(l) && a in l.bookings && b in l.bookings && a.id == b.id
    ensures a == b
  {
    var i :| 0 <= i < |l.bookings| && l.bookings[i] == a;
    var j :| 0 <= j < |l.bookings| && l.bookings[j] == b;
  }

  /**
   * A successful `book_room` adds one order and one pending payment and no
   * revenue; every other outcome leaves the dashboard as it was.
   */
  lemma BookRoomDashboard(l: Ledger, roomId: nat, httpMethod: string, f: BookingForm, order: OrderOutcome)
    ensures var s := BookRoom(l, roomId, httpMethod, f, order);
            var before := Dashboard(l.bookings);
            && (|s.ledger.bookings| > |l.bookings| ==>
                  Dashboard(s.ledger.bookings)
                    == Summary(before.totalOrders + 1, before.totalRevenue, before.pendingPayments + 1))
            && (|s.ledger.bookings| == |l.bookings| ==> Dashboard(s.ledger.bookings) == before)
  {
    var s := BookRoom(l, roomId, httpMethod, f, order);
    if |s.ledger.bookings| > |l.bookings| {
      var b := s.ledger.bookings[|l.bookings|];
      assert s.ledger.bookings == l.bookings + [b];
      DashboardAppend(l.bookings, b);
    } else {
      assert s.ledger.bookings == s.ledger.bookings[..|l.bookings|];
    }
  }

  /**
   * A callback that reaches booking `k` keeps the order count, settles a
   * pending payment if `k` was pending, and moves revenue by the booking's
   * amount exactly when it enters or leaves `confirmed`: a failed
   * verification on a confirmed booking takes its amount back out.
   */
  lemma CallbackDashboard(l: Ledger, orderId: Option<string>, paymentId: Option<string>,
                          signature: Option<string>, v: Verification, k: nat)
    requires SoleHolder(l.bookings, orderId, k)
    ensures var after := Dashboard(PaymentSuccess(l, "POST", orderId, paymentId, signature, v).ledger.bookings);
            var before := Dashboard(l.bookings);
            var b := l.bookings[k];
            && after.totalOrders == before.totalOrders
            && after.pendingPayments + (if b.status == Pending then 1 else 0) == before.pendingPayments
            && (v.Verified? && b.status != Confirmed ==> after.totalRevenue == before.totalRevenue + b.totalAmount)
            && (v.Verified? && b.status == Confirmed ==> after.totalRevenue == before.totalRevenue)
            && (!v.Verified? && b.status == Confirmed ==> after.totalRevenue + b.totalAmount == before.totalRevenue)
            && (!v.Verified? && b.status != Confirmed ==> after.totalRevenue == before.totalRevenue)
  {
    var s := PaymentSuccess(l, "POST", orderId, paymentId, signature, v);
    var b' := s.ledger.bookings[k];
    assert s.ledger.bookings == l.bookings[k := b'];
    DashboardUpdate(l.bookings, k, b');
  }

  /** A verified callback on a pending booking moves its amount from pending to revenue. */
  lemma ConfirmPendingDashboard(l: Ledger, orderId: Option<string>, paymentId: Option<string>,
                                signature: Option<string>, k: nat)
    requires SoleHolder(l.bookings, orderId, k) && l.bookings[k].status == Pending
    ensures var after := Dashboard(PaymentSuccess(l, "POST", orderId, paymentId, signature, Verified).ledger.bookings);
            var before := Dashboard(l.bookings);
            after == Summary(before.totalOrders, before.totalRevenue + l.bookings[k].totalAmount,
                             before.pendingPayments - 1)
  {
    CallbackDashboard(l, orderId, paymentId, signature, Verified, k);
  }

  /** No callback, whatever its inputs, raises the number of pending payments. */
  lemma CallbackNeverAddsPending(l: Ledger, httpMethod: string, orderId: Option<string>,
                                 paymentId: Option<string>, signature: Option<string>, v: Verification)
    ensures Dashboard(PaymentSuccess(l, httpMethod, orderId, paymentId, signature, v).ledger.bookings).pendingPayments
              <= Dashboard(l.bookings).pendingPayments
  {
    var s := PaymentSuccess(l, httpMethod, orderId, paymentId, signature, v);
    if s.ledger != l {
      var m := Find(l.bookings, BookingOrder, orderId);
      assert httpMethod == "POST" && m.One?;
      assert SoleHolder(l.bookings, orderId, m.index);
      CallbackDashboard(l, orderId, paymentId, signature, v, m.index);
    }
  }

  /**
   * The callback has no guard on the booking's current status: whatever
   * status the booking had, the same callback leaves the same ledger.
   */
  lemma NoGuardOnPriorStatus(l: Ledger, k: nat, prior: Status, orderId: Option<string>,
                             paymentId: Option<string>, signature: Option<string>, v: Verification)
    requires SoleHolder(l.bookings, orderId, k)
    ensures var l2 := l.(bookings := l.bookings[k := l.bookings[k].(status := prior)]);
            PaymentSuccess(l2, "POST", orderId, paymentId, signature, v).ledger
              == PaymentSuccess(l, "POST", orderId, paymentId, signature, v).ledger
  {
    var l2 := l.(bookings := l.bookings[k := l.bookings[k].(status := prior)]);
    assert SoleHolder(l2.bookings, orderId, k);
    var s1 := PaymentSuccess(l, "POST", orderId, paymentId, signature, v);
    var s2 := PaymentSuccess(l2, "POST", orderId, paymentId, signature, v);
    assert s1.ledger.bookings == s2.ledger.bookings;
  }

  /**
   * After a successful `book_room`, the checkout page of the new booking shows
   * the amount that was sent to the gateway and the order id it returned.
   */
  lemma CheckoutShowsChargedAmount(l: Ledger, roomId: nat, f: BookingForm, order: OrderOutcome)
    requires Valid(l)
    ensures var s := BookRoom(l, roomId, "POST", f, order);
            |s.ledger.bookings| > |l.bookings| ==>
              var b := s.ledger.bookings[|l.bookings|];
              Checkout(s.ledger, b.id) == CheckoutPage(b.id, s.sent.value.amount, Some(order.id))
  {
    var s := BookRoom(l, roomId, "POST", f, order);
    if |s.ledger.bookings| > |l.bookings| {
      var b := s.ledger.bookings[|l.bookings|];
      assert b in s.ledger.bookings;
      var p := Checkout(s.ledger, b.id);
      assert p.CheckoutPage?;
      var b' :| b' in s.ledger.bookings && b'.id == b.id && p == CheckoutPage(b'.id, b'.totalAmount, b'.orderId);
      BookingIdDetermines(s.ledger, b, b');
    }
  }

  /** With at most one customer per email, two customers with that email are one. */
  lemma SoleEmailHolder(cs: seq<Customer>, email: string, c1: Customer, c2: Customer)
    requires !EmailShared(cs, email)
    requires c1 in cs && c2 in cs && c1.email == email && c2.email == email
    ensures c1 == c2
  {
    var i :| 0 <= i < |cs| && cs[i] == c1;
    var j :| 0 <= j < |cs| && cs[j] == c2;
    if i < j {
      assert false;
    } else if j < i {
      assert false;
    }
  }

  /** A `book_room` that reached the gateway leaves exactly one customer with its email. */
  lemma ReachedGatewayLeavesOneHolder(l: Ledger, roomId: nat, f: BookingForm, order: OrderOutcome)
    ensures var s := BookRoom(l, roomId, "POST", f, order);
            s.sent.Some? ==> EmailKnown(s.ledger.customers, f.email) && !EmailShared(s.ledger.customers, f.email)
  {
    var s := BookRoom(l, roomId, "POST", f, order);
    if s.sent.Some? && !EmailKnown(l.customers, f.email) {
      var cs := s.ledger.customers;
      var created := Customer(l.nextCustomerId, f.firstName, f.lastName, f.email, f.phone);
      if cs == l.customers {
        assert false;
      }
      assert cs == l.customers + [created];
      assert cs[|l.customers|] == created;
    }
  }

  /**
   * Two bookings submitted with one email, the first of which reached the
   * gateway, are made by the same customer: the second call finds the
   * customer the first one found or created and adds none.
   */
  lemma SameEmailSameCustomer(l: Ledger, room1: nat, f1: BookingForm, o1: OrderOutcome,
                              room2: nat, f2: BookingForm, o2: OrderOutcome)
    requires f1.email == f2.email
    ensures var s1 := BookRoom(l, room1, "POST", f1, o1);
            var s2 := BookRoom(s1.ledger, room2, "POST", f2, o2);
            s1.sent.Some? ==>
              && s2.ledger.customers == s1.ledger.customers
              && (|s1.ledger.bookings| > |l.bookings| && |s2.ledger.bookings| > |s1.ledger.bookings| ==>
                    s2.ledger.bookings[|s1.ledger.bookings|].customer == s1.ledger.bookings[|l.bookings|].customer)
  {
    var s1 := BookRoom(l, room1, "POST", f1, o1);
    var s2 := BookRoom(s1.ledger, room2, "POST", f2, o2);
    if s1.sent.Some? {
      var cs := s1.ledger.customers;
      ReachedGatewayLeavesOneHolder(l, room1, f1, o1);
      if |s1.ledger.bookings| > |l.bookings| && |s2.ledger.bookings| > |s1.ledger.bookings| {
        var b1 := s1.ledger.bookings[|l.bookings|];
        var b2 := s2.ledger.bookings[|s1.ledger.bookings|];
        var c1 :| c1 in cs && c1.id == b1.customer && c1.email == f1.email;
        var c2 :| c2 in cs && c2.id == b2.customer && c2.email == f1.email;
        SoleEmailHolder(cs, f1.email, c1, c2);
      }
    }
  }

  /** Rows still awaiting payment carry no payment id and no signature. */
  predicate AwaitingRowsUnpaid(l: Ledger) {
    forall b :: b in l.bookings && b.status == Pending ==> b.paymentId == None && b.signature == None
  }

  /** Both views keep pending rows free of payment data. */
  lemma TransitionsKeepAwaitingRowsUnpaid(l: Ledger, roomId: nat, httpMethod: string, f: BookingForm,
                                          order: OrderOutcome, orderId: Option<string>,
                                          paymentId: Option<string>, signature: Option<string>,
                                          v: Verification)
    requires AwaitingRowsUnpaid(l)
    ensures AwaitingRowsUnpaid(BookRoom(l, roomId, httpMethod, f, order).ledger)
    ensures AwaitingRowsUnpaid(PaymentSuccess(l, httpMethod, orderId, paymentId, signature, v).ledger)
  {
    var s := BookRoom(l, roomId, httpMethod, f, order);
    forall b | b in s.ledger.bookings && b.status == Pending
      ensures b.paymentId == None && b.signature == None
    {
      var i :| 0 <= i < |s.ledger.bookings| && s.ledger.bookings[i] == b;
      if i < |l.bookings| {
        assert b == s.ledger.bookings[..|l.bookings|][i];
      }
    }
    var t := PaymentSuccess(l, httpMethod, orderId, paymentId, signature, v);
    forall b | b in t.ledger.bookings && b.status == Pending
      ensures b.paymentId == None && b.signature == None
    {
      var i :| 0 <= i < |t.ledger.bookings| && t.ledger.bookings[i] == b;
      assert l.bookings[i] in l.bookings;
    }
  }

  /** The schema allows two customers to share one email. */
  lemma EmailNotUnique()
    ensures exists l :: Valid(l) && EmailShared(l.customers, "guest@example.com")
  {
    var c1 := Customer(1, "Asha", "", "guest@example.com", "");
    var c2 := Customer(2, "Ravi", "", "guest@example.com", "");
    var l := Ledger([], [c1, c2], [], 1, 3, 1);
    assert l.customers[0].email == l.customers[1].email;
    assert Valid(l);
  }
}

=== FILE: models.dfy ===
/**
 * The relational schema of the booking app: rooms, customers and bookings,
 * their column domains and defaults, the `unique` constraint on room
 * numbers and the two `on_delete` behaviours of a booking's foreign keys.
 * The database is an immutable `Ledger`; each table is a sequence in
 * primary-key insertion order.
 */
module Models {
  import opened Wrappers
  import opened Queries

  /** Money in paise: both money columns are decimals with two places. */
  type Paise = nat

  /** A calendar date, as a day number; the views never compare dates. */
  type Date = int

  /** `price_per_night` has 8 digits of which 2 are decimals: at most 999999.99 rupees. */
  const PriceLimit: nat := 100_000_000

  /** `total_amount` has 9 digits of which 2 are decimals: at most 9999999.99 rupees. */
  const AmountLimit: nat := 1_000_000_000

  /** `Room.number` is a required text column of at most 10 characters. */
  const NumberMaxLength: nat := 10

  // ---------------------------------------------------------------------
  // Choice columns
  // ---------------------------------------------------------------------

  /** `Room.ROOM_TYPES`. */
  datatype RoomType = Single | Double | Suite

  /** The value stored in the `room_type` column. */
  function RoomTypeCode(t: RoomType): string {
    match t
    case Single => "single"
    case Double => "double"
    case Suite => "suite"
  }

  /** Reads a `room_type` column back; only the three declared choices are accepted. */
  function ParseRoomType(s: string): (r: Option<RoomType>)
    ensures r.Some? ==> RoomTypeCode(r.value) == s
    ensures r.None? ==> forall t :: RoomTypeCode(t) != s
  {
    if s == "single" then Some(Single)
    else if s == "double" then Some(Double)
    else if s == "suite" then Some(Suite)
    else None
  }

  /** `Booking.STATUS_CHOICES`: the payment lifecycle stage of a booking. */
  datatype Status = Pending | Confirmed | Cancelled | Failed

  /** The value stored in the `status` column. */
  function StatusCode(s: Status): string {
    match s
    case Pending => "pending"
    case Confirmed => "confirmed"
    case Cancelled => "cancelled"
    case Failed => "failed"
  }

  /** Reads a `status` column back; only the four declared choices are accepted. */
  function ParseStatus(code: string): (r: Option<Status>)
    ensures r.Some? ==> StatusCode(r.value) == code
    ensures r.None? ==> forall s :: StatusCode(s) != code
  {
    if code == "pending" then Some(Pending)
    else if code == "confirmed" then Some(Confirmed)
    else if code == "cancelled" then Some(Cancelled)
    else if code == "failed" then Some(Failed)
    else None
  }

  // ---------------------------------------------------------------------
  // Rows
  // ---------------------------------------------------------------------

  datatype Room = Room(
    id: nat,
    number: string,
    roomType: RoomType,
    price: Paise,
    description: string,
    available: bool)

  datatype Customer = Customer(
    id: nat,
    firstName: string,
    lastName: string,
    email: string,
    phone: string)

  datatype Booking = Booking(
    id: nat,
    room: nat,              // foreign key to Room, on_delete=PROTECT
    customer: nat,          // foreign key to Customer, on_delete=CASCADE
    checkIn: Date,
    checkOut: Date,
    totalAmount: Paise,
    status: Status,
    orderId: Option<string>,
    paymentId: Option<string>,
    signature: Option<string>)

  /** The whole database, with the next primary key each table will hand out. */
  datatype Ledger = Ledger(
    rooms: seq<Room>,
    customers: seq<Customer>,
    bookings: seq<Booking>,
    nextRoomId: nat,
    nextCustomerId: nat,
    nextBookingId: nat)

  /** Why a write is rejected: a form field's validation, or the database. */
  datatype WriteError =
    | InvalidNumber       // the cleaned room number is empty, over 10 characters or holds NUL
    | InvalidDescription  // the cleaned description holds NUL
    | InvalidDecimal      // a decimal exceeds its declared digits
    | DuplicateNumber     // another room already has the cleaned number
    | ProtectedError      // an on_delete=PROTECT reference blocks the delete

  // Column projections, used as query keys.
  function RoomKey(r: Room): nat { r.id }
  function RoomNumber(r: Room): string { r.number }
  function CustomerKey(c: Customer): nat { c.id }
  function CustomerEmail(c: Customer): string { c.email }
  function BookingKey(b: Booking): nat { b.id }
  function BookingOrder(b: Booking): Option<string> { b.orderId }

  /** A fresh booking row: every column not given takes its declared default. */
  function NewBooking(id: nat, room: nat, customer: nat, checkIn: Date, checkOut: Date,
                      amount: Paise, orderId: Option<string>): Booking
  {
    Booking(id, room, customer, checkIn, checkOut, amount, Pending, orderId, None, None)
  }

  // ---------------------------------------------------------------------
  // Integrity of the database
  // ---------------------------------------------------------------------

  predicate RoomExists(rooms: seq<Room>, id: nat) {
    exists r :: r in rooms && r.id == id
  }

  predicate CustomerExists(customers: seq<Customer>, id: nat) {
    exists c :: c in customers && c.id == id
  }

  /** Some booking row points at room `id`. */
  predicate RoomReferenced(bookings: seq<Booking>, id: nat) {
    exists b :: b in bookings && b.room == id
  }

  /** Every booking column lies in its domain and both foreign keys resolve. */
  predicate BookingValid(l: Ledger, b: Booking) {
    && b.id < l.nextBookingId
    && b.totalAmount < AmountLimit
    && RoomExists(l.rooms, b.room)
    && CustomerExists(l.customers, b.customer)
  }

  /**
   * What the schema guarantees of every stored state: primary keys unique and
   * below the next key, room numbers unique, prices and amounts within their
   * digits, and no dangling foreign key.
   */
  predicate Valid(l: Ledger) {
    && KeysDistinct(l.rooms, RoomKey)
    && KeysDistinct(l.rooms, RoomNumber)
    && (forall r :: r in l.rooms ==> r.id < l.nextRoomId && r.price < PriceLimit)
    && KeysDistinct(l.customers, CustomerKey)
    && (forall c :: c in l.customers ==> c.id < l.nextCustomerId)
    && KeysDistinct(l.bookings, BookingKey)
    && (forall b :: b in l.bookings ==> BookingValid(l, b))
  }

  /**
   * `Booking.objects.create(...)` with the columns `book_room` gives: the next
   * primary key is used and every other column takes its default, so the row
   * starts `pending` with no payment id and no signature.
   */
  function CreateBooking(l: Ledger, room: nat, customer: nat, checkIn: Date, checkOut: Date,
                         amount: Paise, orderId: Option<string>): (l': Ledger)
    ensures l' == l.(bookings := l'.bookings, nextBookingId := l.nextBookingId + 1)
    ensures |l'.bookings| == |l.bookings| + 1 && l'.bookings[..|l.bookings|] == l.bookings
    ensures var b := l'.bookings[|l.bookings|];
            && b.id == l.nextBookingId && b.room == room && b.customer == customer
            && b.checkIn == checkIn && b.checkOut == checkOut
            && b.totalAmount == amount && b.orderId == orderId
            && b.status == Pending && b.paymentId == None && b.signature == None
            && (Valid(l) ==> forall x :: x in l.bookings ==> x.id != b.id)
    ensures (Valid(l) && RoomExists(l.rooms, room) && CustomerExists(l.customers, customer)
             && amount < AmountLimit) ==> Valid(l')
  {
    var b := NewBooking(l.nextBookingId, room, customer, checkIn, checkOut, amount, orderId);
    var l' := l.(bookings := l.bookings + [b], nextBookingId := l.nextBookingId + 1);
    assert l'.bookings[..|l.bookings|] == l.bookings;
    assert Valid(l) ==> forall x :: x in l.bookings ==> x.id != b.id by {
      if Valid(l) {
        forall x | x in l.bookings ensures x.id != b.id {
          assert BookingValid(l, x);
        }
      }
    }
    assert (Valid(l) && RoomExists(l.rooms, room) && CustomerExists(l.customers, customer)
            && amount < AmountLimit) ==> Valid(l') by {
      if Valid(l) && RoomExists(l.rooms, room) && CustomerExists(l.customers, customer) && amount < AmountLimit {
        forall i, j | 0 <= i < j < |l'.bookings|
          ensures BookingKey(l'.bookings[i]) != BookingKey(l'.bookings[j])
        {
          if j == |l.bookings| {
            assert l'.bookings[i] in l.bookings;
            assert BookingValid(l, l'.bookings[i]);
          } else {
            assert l'.bookings[i] == l.bookings[i] && l'.bookings[j] == l.bookings[j];
          }
        }
        forall x | x in l'.bookings ensures BookingValid(l', x) {
          if x != b {
            assert x in l.bookings;
            assert BookingValid(l, x);
          }
        }
      }
    }
    l'
  }

  /** The empty database: no rows, and every table hands out 1 as its first key. */
  const Empty: Ledger := Ledger([], [], [], 1, 1, 1)

  /** The empty database satisfies the schema. */
  lemma EmptyIsValid()
    ensures Valid(Empty)
  {
  }

  // ---------------------------------------------------------------------
  // Form cleaning of text fields
  // ---------------------------------------------------------------------

  /** The characters Python's `str.strip()` removes: those for which `str.isspace()` holds. */
  predicate IsSpace(c: char) {
    || c == ' ' || '\t' <= c <= '\r' || '\U{1c}' <= c <= '\U{1f}'
    || c == '\U{85}' || c == '\U{a0}' || c == '\U{1680}' || '\U{2000}' <= c <= '\U{200a}'
    || c == '\U{2028}' || c == '\U{2029}' || c == '\U{202f}' || c == '\U{205f}' || c == '\U{3000}'
  }

  /** How many characters at the front of `s` are whitespace. */
  function LeadingSpaces(s: string): (n: nat)
    ensures n <= |s|
    ensures forall k :: 0 <= k < n ==> IsSpace(s[k])
    ensures n < |s| ==> !IsSpace(s[n])
    decreases |s|
  {
    if |s| == 0 || !IsSpace(s[0]) then 0 else 1 + LeadingSpaces(s[1..])
  }

  /** How many characters at the back of `s` are whitespace. */
  function TrailingSpaces(s: string): (n: nat)
    ensures n <= |s|
    ensures forall k :: |s| - n <= k < |s| ==> IsSpace(s[k])
    ensures n < |s| ==> !IsSpace(s[|s| - 1 - n])
    decreases |s|
  {
    if |s| == 0 || !IsSpace(s[|s| - 1]) then 0 else 1 + TrailingSpaces(s[..|s| - 1])
  }

  /** `t` sits at offset `i` of `s`, and everything of `s` around it is whitespace. */
  predicate PaddedAt(s: string, t: string, i: nat) {
    && i + |t| <= |s| && s[i..i + |t|] == t
    && (forall k :: 0 <= k < i ==> IsSpace(s[k]))
    && (forall k :: i + |t| <= k < |s| ==> IsSpace(s[k]))
  }

  /**
   * A text field's cleaned value: the form strips surrounding whitespace
   * before it validates and stores the value.
   */
  function Strip(s: string): (t: string)
    ensures t == [] <==> forall k :: 0 <= k < |s| ==> IsSpace(s[k])
    ensures t != [] ==> !IsSpace(t[0]) && !IsSpace(t[|t| - 1])
    ensures exists i: nat :: PaddedAt(s, t, i)
  {
    var n := LeadingSpaces(s);
    if n == |s| then
      assert PaddedAt(s, [], n);
      []
    else
      var m := TrailingSpaces(s);
      assert n < |s| - m;
      var t := s[n..|s| - m];
      assert PaddedAt(s, t, n);
      t
  }

  /** Cleaning a cleaned value changes nothing. */
  lemma StripIdempotent(s: string)
    ensures Strip(Strip(s)) == Strip(s)
  {
    var t := Strip(s);
    if t != [] {
      assert LeadingSpaces(t) == 0;
      assert TrailingSpaces(t) == 0;
      assert t[0..|t| - 0] == t;
    }
  }

  // ---------------------------------------------------------------------
  // Writes constrained by the schema
  // ---------------------------------------------------------------------

  /** A cleaned room number the form accepts: required, at most 10 characters, no NUL. */
  predicate NumberWellFormed(number: string) {
    0 < |number| <= NumberMaxLength && '\0' !in number
  }

  /** A cleaned description the form accepts: it may be empty, but holds no NUL. */
  predicate DescriptionWellFormed(description: string) {
    '\0' !in description
  }

  /** Some room already has this number. */
  predicate NumberTaken(rooms: seq<Room>, number: string) {
    exists x :: x in rooms && x.number == number
  }

  /**
   * Every check the room form fails on already cleaned values; the uniqueness
   * check is skipped for a number that failed its own field checks.
   */
  function RoomErrors(rooms: seq<Room>, number: string, description: string, price: Paise): (e: set<WriteError>)
    ensures e == {} <==>
              NumberWellFormed(number) && DescriptionWellFormed(description)
              && price < PriceLimit && !NumberTaken(rooms, number)
    ensures InvalidNumber in e <==> !NumberWellFormed(number)
    ensures InvalidDescription in e <==> !DescriptionWellFormed(description)
    ensures InvalidDecimal in e <==> price >= PriceLimit
    ensures DuplicateNumber in e <==> NumberWellFormed(number) && NumberTaken(rooms, number)
    ensures ProtectedError !in e
  {
    (if NumberWellFormed(number) then {} else {InvalidNumber})
    + (if DescriptionWellFormed(description) then {} else {InvalidDescription})
    + (if price < PriceLimit then {} else {InvalidDecimal})
    + (if NumberWellFormed(number) && NumberTaken(rooms, number) then {DuplicateNumber} else {})
  }

  /**
   * Inserts a room through the validating form. The number and the description
   * are cleaned first (surrounding whitespace stripped), and every check sees
   * and every row stores the cleaned value. `available` is the optional column
   * value: when it is not given the column default `True` applies. The form
   * checks every field and reports every failure together. The check that the
   * number is unused runs only when the number itself is well formed.
   */
  function CreateRoom(l: Ledger, number: string, roomType: RoomType, price: Paise,
                      description: string, available: Option<bool>): (r: Result<Ledger, set<WriteError>>)
    ensures r.Success? <==>
              && NumberWellFormed(Strip(number))
              && DescriptionWellFormed(Strip(description))
              && price < PriceLimit
              && !NumberTaken(l.rooms, Strip(number))
    ensures r.Failure? ==>
              && r.error != {}
              && (InvalidNumber in r.error <==> !NumberWellFormed(Strip(number)))
              && (InvalidDescription in r.error <==> !DescriptionWellFormed(Strip(description)))
              && (InvalidDecimal in r.error <==> price >= PriceLimit)
              && (DuplicateNumber in r.error <==>
                    NumberWellFormed(Strip(number)) && NumberTaken(l.rooms, Strip(number)))
              && ProtectedError !in r.error
    ensures r.Success? ==>
              && r.value == l.(rooms := r.value.rooms, nextRoomId := l.nextRoomId + 1)
              && |r.value.rooms| == |l.rooms| + 1 && r.value.rooms[..|l.rooms|] == l.rooms
              && var room := r.value.rooms[|l.rooms|];
                 && room.id == l.nextRoomId
                 && room.number == Strip(number) && room.roomType == roomType && room.price == price
                 && room.description == Strip(description)
                 && room.available == (available != Some(false))
    ensures Valid(l) && r.Success? ==> Valid(r.value)
  {
    var cleanNumber := Strip(number);
    var cleanDescription := Strip(description);
    var errors := RoomErrors(l.rooms, cleanNumber, cleanDescription, price);
    if errors != {} then Failure(errors)
    else
      var room := Room(l.nextRoomId, cleanNumber, roomType, price, cleanDescription, available.GetOr(true));
      var l' := l.(rooms := l.rooms + [room], nextRoomId := l.nextRoomId + 1);
      assert Valid(l) ==> Valid(l') by {
        if Valid(l) {
          AppendRoomValid(l, room);
        }
      }
      Success(l')
  }

  /** A room with the next key, an unused number and a price in range keeps the schema. */
  lemma AppendRoomValid(l: Ledger, room: Room)
    requires Valid(l)
    requires room.id == l.nextRoomId && room.price < PriceLimit && !NumberTaken(l.rooms, room.number)
    ensures Valid(l.(rooms := l.rooms + [room], nextRoomId := l.nextRoomId + 1))
  {
    var l' := l.(rooms := l.rooms + [room], nextRoomId := l.nextRoomId + 1);
    forall i, j | 0 <= i < j < |l'.rooms|
      ensures RoomKey(l'.rooms[i]) != RoomKey(l'.rooms[j])
      ensures RoomNumber(l'.rooms[i]) != RoomNumber(l'.rooms[j])
    {
      if j == |l.rooms| {
        assert l'.rooms[i] in l.rooms;
      } else {
        assert l'.rooms[i] == l.rooms[i] && l'.rooms[j] == l.rooms[j];
      }
    }
    forall b | b in l'.bookings ensures BookingValid(l', b) {
      assert BookingValid(l, b);
      var x :| x in l.rooms && x.id == b.room;
      assert x in l'.rooms;
    }
  }

  /** A number of blanks is a missing number. */
  lemma BlankNumberIsMissing(l: Ledger)
    ensures CreateRoom(l, "   ", Single, 100, "", None) == Failure({InvalidNumber})
  {
    assert LeadingSpaces("   ") == 3 by {
      assert "   "[1..] == "  " && "  "[1..] == " " && " "[1..] == "";
    }
    assert Strip("   ") == [];
    assert Strip("") == [];
  }

  /** A padded copy of a taken number is still a duplicate. */
  lemma PaddedDuplicateIsRejected(l: Ledger)
    requires Room(1, "101", Single, 100, "", true) in l.rooms
    ensures CreateRoom(l, "101 ", Single, 100, "", None) == Failure({DuplicateNumber})
  {
    assert LeadingSpaces("101 ") == 0;
    assert TrailingSpaces("101 ") == 1 by {
      assert "101 "[..3] == "101";
    }
    assert Strip("101 ") == "101" by {
      assert "101 "[0..3] == "101";
    }
    assert Strip("") == [];
    assert NumberWellFormed("101") && DescriptionWellFormed("");
    assert NumberTaken(l.rooms, "101");
    assert RoomErrors(l.rooms, "101", "", 100) == {DuplicateNumber};
  }

  /** The padded number starts with two blanks. */
  lemma PaddedNumberLeading()
    ensures LeadingSpaces("  12345678  ") == 2
  {
    var s := "  12345678  ";
    assert s[1..] == " 12345678  " && s[1..][1..] == "12345678  ";
  }

  /** The padded number ends with two blanks. */
  lemma PaddedNumberTrailing()
    ensures TrailingSpaces("  12345678  ") == 2
  {
    var s := "  12345678  ";
    assert s[..|s| - 1] == "  12345678 " && s[..|s| - 1][..|s| - 2] == "  12345678";
  }

  /** Cleaning strips two blanks from each side of an 8-character number. */
  lemma StripPaddedNumber()
    ensures Strip("  12345678  ") == "12345678"
  {
    PaddedNumberLeading();
    PaddedNumberTrailing();
    assert "  12345678  "[2..10] == "12345678";
  }

  /** A padded number of up to 10 characters is accepted and stored without its padding. */
  lemma PaddedNumberIsStoredClean(l: Ledger)
    requires l.rooms == []
    ensures var r := CreateRoom(l, "  12345678  ", Single, 100, "", None);
            r.Success? && r.value.rooms[0].number == "12345678"
  {
    StripPaddedNumber();
    assert Strip("") == [];
    assert NumberWellFormed("12345678") && DescriptionWellFormed("");
    assert !NumberTaken(l.rooms, "12345678");
    assert RoomErrors(l.rooms, "12345678", "", 100) == {};
  }

  /**
   * Deletes room `id`. The booking's room key is `on_delete=PROTECT`: while any
   * booking refers to the room the delete fails and nothing changes.
   */
  function DeleteRoom(l: Ledger, id: nat): (r: Result<Ledger, WriteError>)
    ensures r.Failure? <==> RoomReferenced(l.bookings, id)
    ensures r.Failure? ==> r.error == ProtectedError
    ensures r.Success? ==>
              && r.value == l.(rooms := r.value.rooms)
              && !RoomExists(r.value.rooms, id)
              && (forall x :: x in r.value.rooms <==> x in l.rooms && x.id != id)
              && forall x: Room :: x.id != id ==> multiset(r.value.rooms)[x] == multiset(l.rooms)[x]
    ensures Valid(l) && r.Success? ==> Valid(r.value)
  {
    if exists b :: b in l.bookings && b.room == id then Failure(ProtectedError)
    else
      var l' := l.(rooms := Filter(l.rooms, (x: Room) => x.id != id));
      assert Valid(l) ==> Valid(l') by {
        if Valid(l) {
          FilterKeepsDistinct(l.rooms, (x: Room) => x.id != id, RoomKey);
          FilterKeepsDistinct(l.rooms, (x: Room) => x.id != id, RoomNumber);
          forall b | b in l'.bookings ensures BookingValid(l', b) {
            assert BookingValid(l, b);
            var x :| x in l.rooms && x.id == b.room;
            assert x in l'.rooms;
          }
        }
      }
      Success(l')
  }

  /**
   * Deletes customer `id`. The booking's customer key is `on_delete=CASCADE`:
   * every booking of that customer goes with it, and no other row changes.
   */
  function DeleteCustomer(l: Ledger, id: nat): (l': Ledger)
    ensures l' == l.(customers := l'.customers, bookings := l'.bookings)
    ensures !CustomerExists(l'.customers, id)
    ensures forall c :: c in l'.customers <==> c in l.customers && c.id != id
    ensures forall c: Customer :: c.id != id ==> multiset(l'.customers)[c] == multiset(l.customers)[c]
    ensures forall b :: b in l'.bookings ==> b.customer != id
    ensures forall b: Booking :: b.customer != id ==> multiset(l'.bookings)[b] == multiset(l.bookings)[b]
    ensures Valid(l) ==> Valid(l')
  {
    var l' := l.(customers := Filter(l.customers, (c: Customer) => c.id != id),
                 bookings := Filter(l.bookings, (b: Booking) => b.customer != id));
    assert Valid(l) ==> Valid(l') by {
      if Valid(l) {
        FilterKeepsDistinct(l.customers, (c: Customer) => c.id != id, CustomerKey);
        FilterKeepsDistinct(l.bookings, (b: Booking) => b.customer != id, BookingKey);
        forall b | b in l'.bookings ensures BookingValid(l', b) {
          assert BookingValid(l, b);
          var c :| c in l.customers && c.id == b.customer;
          assert c in l'.customers;
        }
      }
    }
    l'
  }
}

=== FILE: queries.dfy ===
/**
 * The two ORM query shapes the views use, over an ordered table:
 * `filter(...)`, which keeps the matching rows in table order, and
 * `get(...)`, which succeeds only when exactly one row matches and raises
 * `DoesNotExist` or `MultipleObjectsReturned` otherwise.
 */
module Queries {

  /** The three ways a `get(key=k)` lookup can end. */
  datatype Match = NoMatch | One(index: nat) | Many

  /** No two rows of `xs` share a key: a `unique=True` column or a primary key. */
  predicate KeysDistinct<T, K(==)>(xs: seq<T>, key: T -> K) {
    forall i, j :: 0 <= i < j < |xs| ==> key(xs[i]) != key(xs[j])
  }

  /** `get(key=k)`: the index of the only row whose key is `k`, if there is exactly one. */
  function Find<T, K(==)>(xs: seq<T>, key: T -> K, k: K): (m: Match)
    ensures m.NoMatch? <==> forall i :: 0 <= i < |xs| ==> key(xs[i]) != k
    ensures m.One? ==>
              && m.index < |xs| && key(xs[m.index]) == k
              && forall j :: 0 <= j < |xs| && j != m.index ==> key(xs[j]) != k
    ensures m.Many? ==> exists i, j :: 0 <= i < j < |xs| && key(xs[i]) == k && key(xs[j]) == k
    ensures KeysDistinct(xs, key) ==> !m.Many?
    decreases |xs|
  {
    if |xs| == 0 then NoMatch
    else
      match Find(xs[1..], key, k)
      case NoMatch => if key(xs[0]) == k then One(0) else NoMatch
      case One(i) => if key(xs[0]) == k then Many else One(i + 1)
      case Many => Many
  }

  /** `filter(keep)`: the rows satisfying `keep`, each as often as it occurs, in table order. */
  function Filter<T(!new)>(xs: seq<T>, keep: T -> bool): (r: seq<T>)
    ensures |r| <= |xs|
    ensures forall x :: multiset(r)[x] == if keep(x) then multiset(xs)[x] else 0
    ensures forall x :: x in r <==> x in xs && keep(x)
    decreases |xs|
  {
    if |xs| == 0 then []
    else
      assert xs == [xs[0]] + xs[1..];
      (if keep(xs[0]) then [xs[0]] else []) + Filter(xs[1..], keep)
  }

  /** Dropping rows never makes two remaining rows share a key. */
  lemma {:induction false} FilterKeepsDistinct<T(!new), K>(xs: seq<T>, keep: T -> bool, key: T -> K)
    requires KeysDistinct(xs, key)
    ensures KeysDistinct(Filter(xs, keep), key)
    decreases |xs|
  {
    if |xs| > 0 {
      var tail := xs[1..];
      assert KeysDistinct(tail, key) by {
        forall i, j | 0 <= i < j < |tail| ensures key(tail[i]) != key(tail[j]) {
          assert tail[i] == xs[i + 1] && tail[j] == xs[j + 1];
        }
      }
      FilterKeepsDistinct(tail, keep, key);
      var rest := Filter(tail, keep);
      if keep(xs[0]) {
        var r := [xs[0]] + rest;
        forall i, j | 0 <= i < j < |r| ensures key(r[i]) != key(r[j]) {
          if i == 0 {
            assert r[j] == rest[j - 1];
            assert r[j] in tail;
            var m :| 0 <= m < |tail| && tail[m] == r[j];
            assert xs[m + 1] == r[j];
          } else {
            assert r[i] == rest[i - 1] && r[j] == rest[j - 1];
          }
        }
      }
    }
  }
}

=== FILE: views.dfy ===
/**
 * The booking views as pure transitions over the ledger. Every call into the
 * payment gateway is replaced by its outcome, passed in as a parameter; the
 * order a view asks the gateway to create is returned alongside the new state.
 */
module Views {
  import opened Wrappers
  import opened Queries
  import opened Models

  /** The kind of response a view returns, with the data it renders. */
  datatype Page =
    | NotFound                                   // Http404 from get_object_or_404
    | BadRequest(message: string)                // HttpResponseBadRequest
    | ServerError                                // an exception the view does not catch
    | ErrorPage(message: string)                 // book/error.html
    | BookingFormPage(room: Room)                // book/book_room.html
    | PaymentPage(booking: nat, orderId: string, amount: Paise, currency: string)
    | SuccessPage(confirmed: Booking)             // book/payment_success.html
    | CheckoutPage(shown: nat, paise: Paise, order: Option<string>)

  /** The fields of the booking form. */
  datatype BookingForm = BookingForm(
    firstName: string,
    lastName: string,
    email: string,
    phone: string,
    checkIn: Date,
    checkOut: Date)

  /** The order `book_room` asks the gateway to create: an amount in paise, a currency, auto-capture. */
  datatype OrderRequest = OrderRequest(amount: Paise, currency: string, paymentCapture: nat)

  /** What order creation gives back: an order id, a rejected request, or any other exception. */
  datatype OrderOutcome = OrderCreated(id: string) | OrderBadRequest | OrderError(detail: string)

  /** What signature verification gives back. */
  datatype Verification = Verified | SignatureInvalid | VerifyError(detail: string)

  /** The result of `book_room`: new state, response, and the gateway order it requested, if any. */
  datatype BookStep = BookStep(ledger: Ledger, page: Page, sent: Option<OrderRequest>)

  /** The result of a view that talks to the gateway only through a given outcome. */
  datatype Step = Step(ledger: Ledger, page: Page)

  const Currency: string := "INR"

  /** The result of `Customer.objects.get_or_create(email=...)`. */
  datatype CustomerLookup = Resolved(ledger: Ledger, customer: nat) | Ambiguous

  predicate EmailKnown(customers: seq<Customer>, email: string) {
    exists c :: c in customers && c.email == email
  }

  predicate EmailShared(customers: seq<Customer>, email: string) {
    exists i, j :: 0 <= i < j < |customers| && customers[i].email == email && customers[j].email == email
  }

  /**
   * Finds the customer with the form's email, or creates one from the form.
   * An existing customer is reused as stored: the submitted name and phone are
   * dropped. Two customers with that email make the lookup raise.
   */
  function GetOrCreateCustomer(l: Ledger, f: BookingForm): (r: CustomerLookup)
    ensures r.Ambiguous? <==> EmailShared(l.customers, f.email)
    ensures r.Resolved? && EmailKnown(l.customers, f.email) ==>
              && r.ledger == l
              && exists c :: c in l.customers && c.email == f.email && c.id == r.customer
    ensures r.Resolved? && !EmailKnown(l.customers, f.email) ==>
              && r.customer == l.nextCustomerId
              && r.ledger == l.(customers := l.customers + [Customer(r.customer, f.firstName, f.lastName, f.email, f.phone)],
                                nextCustomerId := l.nextCustomerId + 1)
    ensures Valid(l) && r.Resolved? ==> Valid(r.ledger)
  {
    match Find(l.customers, CustomerEmail, f.email)
    case Many => Ambiguous
    case One(i) => Resolved(l, l.customers[i].id)
    case NoMatch =>
      var c := Customer(l.nextCustomerId, f.firstName, f.lastName, f.email, f.phone);
      var l' := l.(customers := l.customers + [c], nextCustomerId := l.nextCustomerId + 1);
      assert Valid(l) ==> Valid(l') by {
        if Valid(l) {
          forall i, j | 0 <= i < j < |l'.customers|
            ensures CustomerKey(l'.customers[i]) != CustomerKey(l'.customers[j])
          {
            if j == |l.customers| {
              assert l'.customers[i] in l.customers;
            } else {
              assert l'.customers[i] == l.customers[i] && l'.customers[j] == l.customers[j];
            }
          }
          forall b | b in l'.bookings ensures BookingValid(l', b) {
            assert BookingValid(l, b);
            var x :| x in l.customers && x.id == b.customer;
            assert x in l'.customers;
          }
        }
      }
      Resolved(l', c.id)
  }

  /** The booking appended by a successful `book_room`. */
  predicate FreshBooking(b: Booking, roomId: nat, f: BookingForm, orderId: string, amount: Paise) {
    && b.room == roomId && b.checkIn == f.checkIn && b.checkOut == f.checkOut
    && b.totalAmount == amount
    && b.status == Pending
    && b.orderId == Some(orderId)
    && b.paymentId == None && b.signature == None
  }

  /** A customer row with this id and email exists. */
  predicate HasCustomer(customers: seq<Customer>, id: nat, email: string) {
    exists c :: c in customers && c.id == id && c.email == email
  }

  /**
   * The POST branch of `book_room` for a room already fetched: resolve the
   * customer, request an order of one night's price, and record the booking
   * when the gateway created the order.
   */
  function SubmitBooking(l: Ledger, room: Room, f: BookingForm, order: OrderOutcome): (s: BookStep)
    requires room in l.rooms
    ensures s.ledger.rooms == l.rooms
    ensures s.sent.None? <==> EmailShared(l.customers, f.email)
    ensures s.sent.None? ==> s == BookStep(l, ServerError, None)
    ensures s.sent.Some? ==> s.sent.value == OrderRequest(room.price, "INR", 1)
    ensures EmailKnown(l.customers, f.email) ==> s.ledger.customers == l.customers
    ensures s.ledger.customers != l.customers ==>
              s.ledger.customers == l.customers + [Customer(l.nextCustomerId, f.firstName, f.lastName, f.email, f.phone)]
    ensures |s.ledger.bookings| == |l.bookings| + (if s.sent.Some? && order.OrderCreated? then 1 else 0)
    ensures s.ledger.bookings[..|l.bookings|] == l.bookings
    ensures |s.ledger.bookings| > |l.bookings| ==>
              var b := s.ledger.bookings[|l.bookings|];
              && FreshBooking(b, room.id, f, order.id, room.price)
              && HasCustomer(s.ledger.customers, b.customer, f.email)
              && s.page == PaymentPage(b.id, order.id, room.price, "INR")
    ensures s.sent.Some? && order.OrderBadRequest? ==>
              s.page == ErrorPage("Payment authentication failed. Check Razorpay keys.")
    ensures s.sent.Some? && order.OrderError? ==>
              s.page == ErrorPage("Error creating Razorpay order: " + order.detail)
    ensures Valid(l) ==> Valid(s.ledger)
  {
    match GetOrCreateCustomer(l, f)
    case Ambiguous => BookStep(l, ServerError, None)
    case Resolved(l1, cid) =>
      var request := OrderRequest(room.price, Currency, 1);
      assert l1.bookings == l.bookings && l1.rooms == l.rooms;
      match order
      case OrderBadRequest =>
        BookStep(l1, ErrorPage("Payment authentication failed. Check Razorpay keys."), Some(request))
      case OrderError(detail) =>
        BookStep(l1, ErrorPage("Error creating Razorpay order: " + detail), Some(request))
      case OrderCreated(oid) =>
        assert HasCustomer(l1.customers, cid, f.email) by {
          if EmailKnown(l.customers, f.email) {
            var c :| c in l.customers && c.email == f.email && c.id == cid;
            assert c in l1.customers;
          } else {
            assert l1.customers[|l.customers|].id == cid;
          }
        }
        assert Valid(l) ==> room.price < AmountLimit;
        var l2 := CreateBooking(l1, room.id, cid, f.checkIn, f.checkOut, room.price, Some(oid));
        var b := l2.bookings[|l.bookings|];
        BookStep(l2, PaymentPage(b.id, oid, request.amount, request.currency), Some(request))
  }

  /**
   * `book_room`: shows the form on anything but POST; on POST resolves the
   * customer, asks the gateway for an order of one night's price, and on
   * success appends one pending booking carrying the order id.
   */
  function BookRoom(l: Ledger, roomId: nat, httpMethod: string, f: BookingForm, order: OrderOutcome): (s: BookStep)
    ensures s.ledger.rooms == l.rooms
    ensures !RoomExists(l.rooms, roomId) ==> s == BookStep(l, NotFound, None)
    ensures httpMethod != "POST" ==> s.ledger == l && s.sent == None
    ensures Valid(l) && RoomExists(l.rooms, roomId) && httpMethod != "POST" ==> s.page.BookingFormPage?
    // the gateway is asked for exactly one night's price of this room
    ensures s.sent.Some? ==>
              && httpMethod == "POST"
              && !EmailShared(l.customers, f.email)
              && exists r :: r in l.rooms && r.id == roomId && s.sent.value == OrderRequest(r.price, "INR", 1)
    // a POST for an existing room reaches the gateway unless the email is ambiguous
    ensures Valid(l) && RoomExists(l.rooms, roomId) && httpMethod == "POST" && s.sent.None? ==>
              EmailShared(l.customers, f.email) && s == BookStep(l, ServerError, None)
    // the customer table grows only for an unknown email, by the submitted customer
    ensures EmailKnown(l.customers, f.email) ==> s.ledger.customers == l.customers
    ensures s.ledger.customers != l.customers ==>
              && s.sent.Some?
              && s.ledger.customers == l.customers + [Customer(l.nextCustomerId, f.firstName, f.lastName, f.email, f.phone)]
    // a booking is appended exactly when the gateway created an order
    ensures |s.ledger.bookings| == |l.bookings| + (if s.sent.Some? && order.OrderCreated? then 1 else 0)
    ensures s.ledger.bookings[..|l.bookings|] == l.bookings
    ensures |s.ledger.bookings| > |l.bookings| ==>
              var b := s.ledger.bookings[|l.bookings|];
              && FreshBooking(b, roomId, f, order.id, s.sent.value.amount)
              && HasCustomer(s.ledger.customers, b.customer, f.email)
              && s.page == PaymentPage(b.id, order.id, s.sent.value.amount, "INR")
    ensures s.sent.Some? && order.OrderBadRequest? ==>
              s.page == ErrorPage("Payment authentication failed. Check Razorpay keys.")
    ensures s.sent.Some? && order.OrderError? ==>
              s.page == ErrorPage("Error creating Razorpay order: " + order.detail)
    ensures Valid(l) ==> Valid(s.ledger)
  {
    match Find(l.rooms, RoomKey, roomId)
    case NoMatch => BookStep(l, NotFound, None)
    case Many => BookStep(l, ServerError, None)
    case One(k) =>
      var room := l.rooms[k];
      assert room in l.rooms;
      if httpMethod != "POST" then BookStep(l, BookingFormPage(room), None)
      else SubmitBooking(l, room, f, order)
  }

  /** Booking `k` is the only row carrying this order id. */
  predicate SoleHolder(bs: seq<Booking>, orderId: Option<string>, k: nat) {
    && k < |bs| && bs[k].orderId == orderId
    && forall j :: 0 <= j < |bs| && j != k ==> bs[j].orderId != orderId
  }

  /** Two versions of one booking row agree on everything but status and payment fields. */
  predicate SameReservation(a: Booking, b: Booking) {
    && a.id == b.id && a.room == b.room && a.customer == b.customer
    && a.checkIn == b.checkIn && a.checkOut == b.checkOut
    && a.totalAmount == b.totalAmount && a.orderId == b.orderId
  }

  /**
   * The tail of `payment_success` once booking `k` has been fetched: the
   * verification outcome alone sets the status; only a verified payment
   * stores its payment id and signature, a failed one returns before them.
   */
  function Settle(l: Ledger, k: nat, paymentId: Option<string>, signature: Option<string>,
                  v: Verification): (s: Step)
    requires k < |l.bookings|
    ensures s.ledger == l.(bookings := s.ledger.bookings)
    ensures |s.ledger.bookings| == |l.bookings|
    ensures forall j :: 0 <= j < |l.bookings| && j != k ==> s.ledger.bookings[j] == l.bookings[j]
    ensures SameReservation(l.bookings[k], s.ledger.bookings[k])
    ensures s.ledger.bookings[k].status == (if v.Verified? then Confirmed else Failed)
    ensures v.Verified? ==>
              && s.ledger.bookings[k].paymentId == paymentId
              && s.ledger.bookings[k].signature == signature
              && s.page == SuccessPage(s.ledger.bookings[k])
    ensures !v.Verified? ==>
              && s.ledger.bookings[k].paymentId == l.bookings[k].paymentId
              && s.ledger.bookings[k].signature == l.bookings[k].signature
    ensures v.SignatureInvalid? ==> s.page == ErrorPage("Payment verification failed. Please contact support.")
    ensures v.VerifyError? ==> s.page == ErrorPage("Payment verification error: " + v.detail)
    ensures Valid(l) ==> Valid(s.ledger)
  {
    var b := l.bookings[k];
    var settled :=
      if v.Verified? then b.(status := Confirmed, paymentId := paymentId, signature := signature)
      else b.(status := Failed);
    var l' := l.(bookings := l.bookings[k := settled]);
    assert Valid(l) ==> Valid(l') by {
      if Valid(l) {
        forall i, j | 0 <= i < j < |l'.bookings|
          ensures BookingKey(l'.bookings[i]) != BookingKey(l'.bookings[j])
        {
          assert BookingKey(l.bookings[i]) != BookingKey(l.bookings[j]);
        }
        forall x | x in l'.bookings ensures BookingValid(l', x) {
          var i :| 0 <= i < |l'.bookings| && l'.bookings[i] == x;
          assert l.bookings[i] in l.bookings;
        }
      }
    }
    match v
    case Verified => Step(l', SuccessPage(settled))
    case SignatureInvalid => Step(l', ErrorPage("Payment verification failed. Please contact support."))
    case VerifyError(detail) => Step(l', ErrorPage("Payment verification error: " + detail))
  }

  /**
   * `payment_success`: the gateway's callback. Only POST is accepted; the
   * booking is found by order id; verification decides `confirmed` or `failed`
   * whatever the booking's prior status, and only a verified payment records
   * its payment id and signature.
   */
  function PaymentSuccess(l: Ledger, httpMethod: string, orderId: Option<string>,
                          paymentId: Option<string>, signature: Option<string>,
                          v: Verification): (s: Step)
    ensures httpMethod != "POST" ==> s == Step(l, BadRequest("Invalid request method."))
    ensures httpMethod == "POST" && (forall b :: b in l.bookings ==> b.orderId != orderId) ==>
              s == Step(l, BadRequest("Booking not found."))
    ensures httpMethod == "POST" &&
            (exists i, j :: 0 <= i < j < |l.bookings| && l.bookings[i].orderId == orderId && l.bookings[j].orderId == orderId) ==>
              s == Step(l, ServerError)
    ensures forall k: nat | SoleHolder(l.bookings, orderId, k) ::
              httpMethod == "POST" ==> s == Settle(l, k, paymentId, signature, v)
    // only the bookings column changes, and no callback moves a booking back to pending
    ensures s.ledger == l.(bookings := s.ledger.bookings)
    ensures |s.ledger.bookings| == |l.bookings|
    ensures forall k :: 0 <= k < |l.bookings| && s.ledger.bookings[k].status == Pending ==>
              s.ledger.bookings[k] == l.bookings[k]
    ensures Valid(l) ==> Valid(s.ledger)
  {
    if httpMethod != "POST" then Step(l, BadRequest("Invalid request method."))
    else
      match Find(l.bookings, BookingOrder, orderId)
      case NoMatch => Step(l, BadRequest("Booking not found."))
      case Many => Step(l, ServerError)
      case One(k) =>
        assert SoleHolder(l.bookings, orderId, k);
        Settle(l, k, paymentId, signature, v)
  }

  /**
   * `checkout`: shows a stored booking with its amount in paise and its order
   * id. The stored decimal times 100 is exact, so the amount is the stored one.
   */
  function Checkout(l: Ledger, bookingId: nat): (p: Page)
    ensures p.NotFound? <==> forall b :: b in l.bookings ==> b.id != bookingId
    ensures p.CheckoutPage? ==>
              exists b :: b in l.bookings && b.id == bookingId && p == CheckoutPage(b.id, b.totalAmount, b.orderId)
    ensures Valid(l) && !p.NotFound? ==> p.CheckoutPage?
  {
    match Find(l.bookings, BookingKey, bookingId)
    case NoMatch => NotFound
    case Many => ServerError
    case One(k) =>
      var b := l.bookings[k];
      assert b in l.bookings;
      CheckoutPage(b.id, b.totalAmount, b.orderId)
  }

  /** `room_list`: the rooms marked available, in table order; no date or booking is consulted. */
  function RoomList(l: Ledger): (rooms: seq<Room>)
    ensures forall r :: r in rooms <==> r in l.rooms && r.available
    ensures forall r: Room :: r.available ==> multiset(rooms)[r] == multiset(l.rooms)[r]
  {
    Filter(l.rooms, (r: Room) => r.available)
  }
}

=== FILE: wrappers.dfy ===
/** The `Option` and `Result` types shared by the model. */
module Wrappers {

  /** A value that may be absent: a nullable column or a missing form field. */
  datatype Option<+T> = None | Some(value: T) {

    /** The carried value, or `default` when absent. */
    function GetOr(default: T): T {
      match this
      case Some(v) => v
      case None => default
    }
  }

  /** The outcome of a database write: the new state, or the error it raised. */
  datatype Result<+T, +E> = Success(value: T) | Failure(error: E)
}
